=== FILE: README.md ===
# SNMP Simulator UI — a Dafny model of its recording lifecycle

The system keeps SNMP device *recordings* in a table. Each recording has a name, an IP
address, a port, a read community and an uploaded data file. The system starts and stops an
external simulator daemon (`snmpsimd`) that replays each recording on its `ip:port`. This
project models four things:

- **the process runner** (`Runner`): how a recording's fields become operating-system command
  lines. Its `start`, `stop` and `stop_all` are modelled as the lists of commands they issue.
  An oracle parameter says how each command ends: exit 0, a non-zero exit, or not started at all.
- **the admin actions** (`Admin`) and **the REST start/stop actions** (`Api`): transitions of
  the table, a `map<Id, Recording>`. Each transition receives the outcome of every runner call
  (returned or raised) and, where relevant, the SNMP probe's answer. It returns three things:
  - the new table;
  - the runner and probe calls it made, in order (`Effects.Call`);
  - the level of each message it showed, or the HTTP status and body.
- **the address picker** of the recording form (`Forms`): the hosts of the configured network
  split into free and used addresses, plus the initial choice.
- **the `Recording` entity** (`Models`) and its defaults. `Text` holds the Python string
  operations the runner depends on: `rfind`, `split`, `join`, `os.path.dirname`, `rstrip` and
  `str(int)`. `split`/`join` and `str(int)` each have an inverse, and `rfind` a uniqueness
  lemma. `dirname` is characterised only on paths of the form `d + "/" + f`
  (`Text.DirNameOfPath`). `rstrip` is characterised only by its own contract.

`Runner.Execute` connects the two layers. It expands a `Call` recorded by the admin or REST
layer into the commands the runner issues.

Where the code does something a reader might not expect, the model follows the code:

- **Which values the update stop uses.** The variable `old_recording` and the log message
  "Failed to stop old recording" suggest that the stop uses the row as it was before the edit.
  But in the admin's change flow, `save_model`
  (simulator/admin.py:114-124) runs before `response_change`. So the "old" recording re-read at
  simulator/admin.py:179 already holds the new values. A running recording is therefore stopped
  with its *new* address, port, community and file, not the pre-update ones
  (`Admin.ChangeFlow`). See Findings.
- **The cleared running flag.** One might expect that stopping the daemon also records the
  recording as stopped. But when a running recording is saved without "_start", its daemon is
  stopped and the cleared flag is never written. The table still says the recording is running
  (`Admin.ChangeWithoutStartKeepsRunningFlag`).
- **`updated_by`.** One might expect every change to a recording to record who made it. But it
  is set only by `save_model`; the start and stop actions do not touch it.
- **Sub-interface removal failures.** The `try` around the removal suggests that a removal
  never makes `stop` fail. But a failed removal is swallowed only when `ifconfig` exits
  non-zero. If `ifconfig` cannot be started at all, `stop` raises
  (`Runner.StopFailsOnlyOnUnrunnableIfconfig`).
- **Uniqueness of (ip, port).** Two daemons cannot serve the same endpoint, so one might expect
  the table to forbid two recordings with the same address and port. No such constraint
  appears in the model class, and none is asserted.

`Models.IsIpAddressUnique` stands for `Recording.objects.is_ip_address_unique`. The custom
manager that defines it is not part of this model. It is defined here as "exactly one
recording has this address", which is an assumption.

## Model

| member | source | states |
|---|---|---|
| `Models.NewRecording` | simulator/models.py:5-14 | a new recording has port 161, community "public" and is not running; it is field-valid exactly when its name fits in 255 characters |
| `Models.Str` | simulator/models.py:16-17 | the display text is the name, then " IP: ", then the address, and both parts can be read back from it |
| `Models.IpUniqueIffNoSharer` | simulator/admin.py:138 | a stored recording's address counts as unique exactly when no other recording shares it |
| `Models.UniquenessKeptBySameAddresses` | simulator/admin.py:360 | writes that leave every address alone do not change any uniqueness answer |
| `Text.AfterLast` | simulator/snmpsim_runner.py:42 | `rfind(c) + 1`: the result is just past an occurrence of `c`, with no `c` after it, or 0 when `c` does not occur |
| `Text.SplitJoin` | simulator/snmpsim_runner.py:107 | splitting a space-join gives back the parts when no part contains a space |
| `Text.JoinInjective` | simulator/snmpsim_runner.py:107 | space-joins of space-free parts are equal only for equal part lists |
| `Text.JoinStartsWithFirst` | simulator/snmpsim_runner.py:107 | a join begins with its first part |
| `Text.DirNameOfPath` | simulator/snmpsim_runner.py:30 | `dirname(d + "/" + f)` is `d` for a file name `f` and a directory `d` without a trailing slash |
| `Text.NatToDecimal` | simulator/snmpsim_runner.py:31 | the port is written as a non-empty run of digits with no leading zero |
| `Text.DecimalRoundTrip` | simulator/snmpsim_runner.py:31 | reading the port's decimal text back gives the port |
| `Runner.EndpointRoundTrip` | simulator/snmpsim_runner.py:31 | `ip:port` splits back at its last colon into exactly that address and port, IPv6 included |
| `Runner.StartCommand` | simulator/snmpsim_runner.py:18-34 | the launcher command has 8 elements: the script path, then the user, group, data-dir, endpoint, v2c-arch, community and daemonize options, in that order |
| `Runner.StartCommandRoundTrip` | simulator/snmpsim_runner.py:27-34 | the command tells the daemon: the configured user and group, the directory part of the recording file as data directory, `ip:port` as endpoint, and the recording's community |
| `Runner.StartCommandDistinguishes` | simulator/snmpsim_runner.py:27-34 | two recordings share a command line only if they agree on data directory, address, port and community |
| `Runner.Fingerprint` | simulator/snmpsim_runner.py:103-107 | the stop pattern begins with the launcher path, and with space-free fields splitting it at spaces gives back the start command |
| `Runner.PkillLine` | simulator/snmpsim_runner.py:108 | the shell line is `pkill -f '`, the pattern, then a closing quote, so the pattern reads back from between the quotes |
| `Runner.FingerprintDistinguishes` | simulator/snmpsim_runner.py:103-108 | with space-free fields, equal stop fingerprints mean equal data directory, address, port and community |
| `Runner.LastSegmentAfterLastDot` | simulator/snmpsim_runner.py:42 | `split('.')[-1]` is the text after the last dot, dot-free, and the whole address when it has no dot |
| `Runner.SubInterfaceName` | simulator/snmpsim_runner.py:36-42 | the name is the interface prefix, a colon and the address's text after its last dot, which holds no dot |
| `Runner.SubInterfaceCollision` | simulator/snmpsim_runner.py:42 | two addresses get the same sub-interface exactly when their last segments are equal |
| `Runner.SubInterfaceCollisionExample` | simulator/snmpsim_runner.py:42 | 10.0.0.5 and 192.168.1.5 are different addresses with the same sub-interface `<prefix>:5` |
| `Runner.CreateSubInterface` | simulator/snmpsim_runner.py:44-53 | `ifconfig` is asked to bring up the address's sub-interface with the address itself and a /24 netmask |
| `Runner.RemoveSubInterface` | simulator/snmpsim_runner.py:57-67 | `ifconfig` is asked to take the address's sub-interface down |
| `Runner.RemoveUndoesCreate` | simulator/snmpsim_runner.py:51-67 | removal for an address names the same sub-interface that its creation brought up |
| `Runner.RemoveTargetsCreatedInterface` | simulator/snmpsim_runner.py:51-67 | removal for one address takes down the interface created for another exactly when their last segments agree |
| `Runner.Start` | simulator/snmpsim_runner.py:73-90 | `ifconfig <name> <ip>/24` is issued first; the launcher is issued only if it exited 0; start succeeds exactly when both exited 0 |
| `Runner.Stop` | simulator/snmpsim_runner.py:92-111 | the kill of the start fingerprint comes first; `ifconfig <name> down` follows exactly when removal is asked; stop raises only when that `ifconfig` cannot be started |
| `Runner.StopAll` | simulator/snmpsim_runner.py:113-119 | exactly one shell line, `pkill -f '<launcher path>'`, which never raises |
| `Runner.Execute` | simulator/snmpsim_runner.py:73-111 | a recorded start begins with the interface creation; a recorded stop begins with the fingerprint kill and cannot fail without interface removal |
| `Runner.StopTargetsWhatStartLaunched` | simulator/snmpsim_runner.py:103-108 | the pattern stop kills equals the space-join of the command start launched with the same four arguments |
| `Runner.StopFailsOnlyOnUnrunnableIfconfig` | simulator/snmpsim_runner.py:64-71 | the kill step never makes stop fail; a non-zero `ifconfig down` is swallowed |
| `Runner.StopAllCoversEveryStart` | simulator/snmpsim_runner.py:113-119 | the stop-all pattern, the launcher path, begins every start fingerprint |
| `Admin.SaveModel` | simulator/admin.py:114-124 | the edited object is written with the acting user stamped on it; other rows are untouched |
| `Admin.StartRecording` | simulator/admin.py:270-292 | success marks the recording running; failure leaves it unchanged; an unknown id shows an error without reaching the runner; no other row changes |
| `Admin.StopRecording` | simulator/admin.py:294-317 | success clears the running flag; failure leaves it unchanged; removal of the sub-interface is asked exactly when the address is unique |
| `Admin.StopRemovesInterfaceIffNoSharer` | simulator/admin.py:301-307 | stopping asks for sub-interface removal exactly when no other recording shares the address |
| `Admin.SingleActionsKeepWellFormed` | simulator/admin.py:277-317 | start and stop keep every row field-valid |
| `Admin.FailuresMembers` | simulator/admin.py:326-336 | the failure list holds exactly the selected recordings whose call raised |
| `Admin.FailuresInSelectionOrder` | simulator/admin.py:327-335 | the failure list keeps the selection order |
| `Admin.FailuresEmptyIffAllOk` | simulator/admin.py:341-344 | the failure list is empty exactly when every call returned |
| `Admin.MarkSuccessesPointwise` | simulator/admin.py:338-339 | after a bulk action only the successes change, and only in their running flag |
| `Admin.StartRecordings` | simulator/admin.py:319-344 | every selected recording gets one start in selection order; each ends as a single start would leave it; the failures are collected in order; the success message appears exactly when none failed |
| `Admin.StopRecordings` | simulator/admin.py:346-372 | the same for stop; each stop's removal flag is the address's uniqueness in the table as it stood before the loop |
| `Admin.DeleteModel` | simulator/admin.py:126-144 | a stop is attempted first; the row is deleted whatever the stop did; a raised stop only adds an error message |
| `Admin.DeleteQueryset` | simulator/admin.py:146-169 | every selected recording gets a stop attempt; the whole selection is deleted however many raised; failures are reported once, in order; a recording whose address another selected one shares is stopped without sub-interface removal |
| `Admin.DeleteKeepsSharedInterface` | simulator/admin.py:155-160 | when two selected recordings share an address, no stop of the bulk deletion for that address takes the sub-interface down, so it outlives all of them |
| `Admin.DeleteStopsAsStopAction` | simulator/admin.py:133-138 | deleting one recording issues the same stop as its stop action, removing the sub-interface exactly when no other recording shares the address |
| `Admin.ResponseAdd` | simulator/admin.py:227-268 | with "_start" the saved flag equals the start outcome; the description changes only after a successful start with auto-discovery on and a probe answer; the probe runs exactly then; without "_start" nothing happens |
| `Admin.AddAndChangeStartAgree` | simulator/admin.py:192-263 | the "_start" branch of a change is the add branch run on the object marked stopped, preceded by the stop of the stored row when it was running; with a stopped object the two are identical |
| `Admin.ResponseChange` | simulator/admin.py:171-225 | a running object gets exactly one stop, issued before any start; with "_start" the saved flag equals the start outcome; without it the table is left as it was |
| `Admin.ChangeFlow` | simulator/admin.py:178-187 | after `save_model`, a running recording is stopped with the newly saved values |
| `Admin.ChangeWithoutStartKeepsRunningFlag` | simulator/admin.py:188-192 | saving a running recording without "_start" stops its daemon but leaves it marked running |
| `Admin.ChangeFlowMissesRunningDaemon` | simulator/admin.py:178-187 | editing a running recording's port from 161 to 162 issues a stop whose command line differs from the one its daemon was launched with |
| `Admin.ChangeFlowIntended` | simulator/admin.py:178-225 | a running object gets one stop, issued before any start; with "_start" the saved flag equals the start outcome |
| `Admin.ChangeFlowIntendedStopsLaunchedDaemon` | simulator/admin.py:179-187 | the stop carries the stored row's arguments, those the daemon was launched with, and any restart uses the edited values; the two are never mixed |
| `Api.Start` | simulator/api.py:21-41 | 400 for an unknown key with no runner call; 500 after a raised start with nothing saved; 204 after saving the recording as running |
| `Api.Stop` | simulator/api.py:43-64 | 400 for an unknown key with no runner call; 500 after a raised stop with nothing saved; 204 after clearing the flag; removal asked exactly when the address is unique |
| `Api.AgreesWithAdmin` | simulator/api.py:21-64 | the REST actions and the admin links make the same calls and leave the same table; REST success coincides with the admin's success message |
| `Api.StartThenStop` | simulator/api.py:38-64 | a successful start then stop leaves the recording as before with its flag cleared |
| `Forms.UsedIps` | simulator/forms.py:48 | one used address per recording, in query order, duplicates kept |
| `Forms.FreeOfMembers` | simulator/forms.py:49 | an address is free exactly when it is a network host that no recording uses |
| `Forms.FreeOfInHostOrder` | simulator/forms.py:49 | free addresses keep the host order |
| `Forms.FirstFree` | simulator/forms.py:41-49 | no address is free exactly when every host is used; otherwise the first free address is the first unused host |
| `Forms.FreeIps` | simulator/forms.py:49 | the loop computes the free list: hosts not in the used list |
| `Forms.GetRecordingsIps` | simulator/forms.py:43-51 | the free and used lists share no address, and every free address is a host |
| `Forms.Pairs` | simulator/forms.py:36-37 | every address becomes an `(ip, ip)` option, in order |
| `Forms.IpAddressField` | simulator/forms.py:27-41 | two groups, "Free" then "Used in other Recordings"; the initial value is the first unused host, or "" when every host is used |

## Findings

| source | as written | input that shows it | evidently intended | confidence | as-written member | corrected member |
|---|---|---|---|---|---|---|
| simulator/admin.py:178-187 | `response_change` re-reads the "old" recording after `save_model` (simulator/admin.py:114-124) has already written the edit. It therefore stops the daemon using the edited address, port, community and file. | A running recording on 10.0.0.5:161 whose port is edited to 162: the kill pattern names port 162, and the daemon on 161 keeps running. | Stop the daemon using the row as stored before the edit, as the names `old_recording` and "Failed to stop old recording" say. | medium; not executed | `Admin.ChangeFlow`, `Admin.ChangeFlowMissesRunningDaemon` | `Admin.ChangeFlowIntended`, `Admin.ChangeFlowIntendedStopsLaunchedDaemon` |

## Left out

- Running commands is out of scope: `subprocess`, `os.system` and `pkill` become an oracle that gives each issued command's exit.
- The oracle is a function of the command, so two identical commands in one trace would end alike. This never matters here, because each runner operation issues distinct commands.
- Command output and logging are not modelled.
- The runner constructor's `makedirs`/`chown` of the daemon folder is not modelled (filesystem I/O).
- `pkill -f` matching is not modelled. Its pattern is a regular expression searched in each process's command line. The model states what pattern is issued, not which processes match it.
- Shell quoting of the `pkill` line is not modelled. A fingerprint containing `'` would break it.
- Runner.StopAllCoversEveryStart: states that the launcher path begins every fingerprint, not that `pkill` actually matches those daemons, because process matching is not modelled.
- simulator/snmp_handler.py, the SNMP probe, is not part of this model. Its answer is an `Option<string>` parameter; `None` stands for any exception.
- URL routing (simulator/urls.py) is not modelled.
- Django admin plumbing is not modelled: `get_urls`, `get_fields`, templates and `recording_actions`.
- The redirects returned by the admin actions are not modelled.
- The messages Django itself shows after `super().response_add/response_change/delete_*` are not modelled.
- Message text is kept only as its level (info or error). REST error bodies do keep their text.
- The ORM's own errors are not modelled.
- Every runner outcome is abstracted to "returned" or "raised". This includes a `recording_file` with no file behind it, whose `.path` raises inside the same `try`.
- Api.Start, Api.Stop: the `IsAuthenticated` permission check and the GET-only routing declared at simulator/api.py:21 and :43 are not modelled. The framework applies them before the action body runs. It answers an unauthenticated request with 401 or 403, depending on authentication settings outside the repository, and a method other than GET with 405. In both cases no runner call is made and the table is unchanged. The model takes an authenticated GET.
- The REST `pk` is modelled as a natural-number id. A non-numeric `pk` makes the ORM raise before the `try`; that framework error is left out.
- `ipaddress.ip_network(...).hosts()` is not modelled; the host list is an input sequence.
- Addresses are compared as exact strings, as `in` does on the used list.
- `updated_at` (`auto_now`) and `created_at` (`auto_now_add`) are not modelled, because that means reading a clock. Saves leave the timestamps as given.
- Database uniqueness of (ip, port) is not modelled: no such constraint appears in the model class.
- File-cleanup hooks are not modelled: none appears in the model class.
- The custom manager behind `is_ip_address_unique` is replaced by an explicit definition (see above).
- Django `GenericIPAddressField` validation is not modelled.
- `max_length` is checked by the form, not by the model.
- Concurrency between requests is not modelled. Each transition is one synchronous request, and the code guards nothing.
- Defaults of `autodiscover_sys_desc`, `sys_description` and `comment` are not modelled. Their field declarations are absent from the model class, so `NewRecording` takes them as arguments.

=== FILE: admin.dfy ===
/** The admin site's lifecycle actions (simulator/admin.py) as transitions of the recordings
    table. Each action receives the outcome of every runner call it makes (true: the call
    returned, false: it raised) and the probe's answer, and returns the new table, the runner
    and probe calls it issued in order, and the levels of the messages it showed. */
module Admin {
  import opened Wrappers
  import opened Text
  import opened Seqs
  import opened Models
  import opened Effects
  import Runner

  /** `messages.INFO` (the `message_user` default) or `messages.ERROR`. */
  datatype Level = Info | Error

  datatype AdminResult = AdminResult(store: Store, calls: seq<Call>, messages: seq<Level>)

  datatype BulkResult = BulkResult(store: Store, calls: seq<Call>, failed: seq<Id>, messages: seq<Level>)

  /** A queryset of selected recordings: stored rows, each at most once, in iteration order. */
  predicate IsSelection(store: Store, selection: seq<Id>) {
    && (forall i :: 0 <= i < |selection| ==> selection[i] in store)
    && (forall i, j :: 0 <= i < j < |selection| ==> selection[i] != selection[j])
  }

  /** The selected ids whose runner call raised, in selection order. */
  function Failures(selection: seq<Id>, oks: seq<bool>): (failed: seq<Id>)
    requires |oks| == |selection|
  {
    if |selection| == 0 then []
    else
      var n := |selection| - 1;
      Failures(selection[..n], oks[..n]) + (if oks[n] then [] else [selection[n]])
  }

  /** The failure list holds exactly the selected ids whose call raised. */
  lemma {:induction false} FailuresMembers(selection: seq<Id>, oks: seq<bool>)
    requires |oks| == |selection|
    ensures forall x :: x in Failures(selection, oks)
                    <==> exists i :: 0 <= i < |selection| && selection[i] == x && !oks[i]
  {
    if |selection| > 0 {
      var n := |selection| - 1;
      var front := Failures(selection[..n], oks[..n]);
      FailuresMembers(selection[..n], oks[..n]);
      forall x
        ensures x in Failures(selection, oks)
            <==> exists i :: 0 <= i < |selection| && selection[i] == x && !oks[i]
      {
        if x in front {
          var i :| 0 <= i < n && selection[..n][i] == x && !oks[..n][i];
          assert selection[i] == x && !oks[i];
        }
        if exists i :: 0 <= i < |selection| && selection[i] == x && !oks[i] {
          var i :| 0 <= i < |selection| && selection[i] == x && !oks[i];
          if i < n {
            assert selection[..n][i] == x && !oks[..n][i];
          }
        }
      }
    }
  }

  /** The failures keep the selection's order. */
  lemma {:induction false} FailuresInSelectionOrder(selection: seq<Id>, oks: seq<bool>)
    requires |oks| == |selection|
    ensures IsSubsequence(Failures(selection, oks), selection)
  {
    if |selection| > 0 {
      var n := |selection| - 1;
      var front := Failures(selection[..n], oks[..n]);
      FailuresInSelectionOrder(selection[..n], oks[..n]);
      assert selection[..n] + [selection[n]] == selection;
      if oks[n] {
        assert Failures(selection, oks) == front;
        SubsequenceExtend(front, selection[..n], selection[n]);
      } else {
        assert Failures(selection, oks) == front + [selection[n]];
        SubsequenceAppendBoth(front, selection[..n], selection[n]);
      }
    }
  }

  /** The failure list is empty exactly when every call returned. */
  lemma {:induction false} FailuresEmptyIffAllOk(selection: seq<Id>, oks: seq<bool>)
    requires |oks| == |selection|
    ensures Failures(selection, oks) == [] <==> forall i :: 0 <= i < |oks| ==> oks[i]
  {
    if |selection| > 0 {
      var n := |selection| - 1;
      FailuresEmptyIffAllOk(selection[..n], oks[..n]);
      assert forall i :: 0 <= i < n ==> oks[i] == oks[..n][i];
    }
  }

  /** The table after a bulk action that sets the running flag to `running` on the selected
      recordings whose call returned, each written from its row as first read. */
  function MarkSuccesses(store: Store, selection: seq<Id>, oks: seq<bool>, running: bool): (marked: Store)
    requires IsSelection(store, selection)
    requires |oks| == |selection|
  {
    if |selection| == 0 then store
    else
      var n := |selection| - 1;
      var front := MarkSuccesses(store, selection[..n], oks[..n], running);
      if oks[n] then front[selection[n] := store[selection[n]].(isRunning := running)] else front
  }

  /** A bulk flag write keeps the table's keys. */
  lemma {:induction false} MarkSuccessesKeys(store: Store, selection: seq<Id>, oks: seq<bool>, running: bool)
    requires IsSelection(store, selection)
    requires |oks| == |selection|
    ensures MarkSuccesses(store, selection, oks, running).Keys == store.Keys
  {
    if |selection| > 0 {
      var n := |selection| - 1;
      MarkSuccessesKeys(store, selection[..n], oks[..n], running);
    }
  }

  /** A row outside the selection is left as it was. */
  lemma {:induction false} MarkSuccessesUnselected(store: Store, selection: seq<Id>, oks: seq<bool>, running: bool, id: Id)
    requires IsSelection(store, selection)
    requires |oks| == |selection|
    requires id in store && id !in selection
    ensures id in MarkSuccesses(store, selection, oks, running)
    ensures MarkSuccesses(store, selection, oks, running)[id] == store[id]
  {
    if |selection| > 0 {
      var n := |selection| - 1;
      assert id !in selection[..n] by {
        assert forall k :: 0 <= k < n ==> selection[..n][k] == selection[k];
      }
      MarkSuccessesUnselected(store, selection[..n], oks[..n], running, id);
    }
  }

  /** A selected row gets the flag exactly when its call returned, and nothing else changes. */
  lemma {:induction false} MarkSuccessesSelected(store: Store, selection: seq<Id>, oks: seq<bool>, running: bool, i: nat)
    requires IsSelection(store, selection)
    requires |oks| == |selection|
    requires i < |selection|
    ensures selection[i] in MarkSuccesses(store, selection, oks, running)
    ensures MarkSuccesses(store, selection, oks, running)[selection[i]]
         == (if oks[i] then store[selection[i]].(isRunning := running) else store[selection[i]])
  {
    var n := |selection| - 1;
    if i == n {
      assert selection[n] !in selection[..n] by {
        assert forall k :: 0 <= k < n ==> selection[..n][k] == selection[k];
      }
      MarkSuccessesUnselected(store, selection[..n], oks[..n], running, selection[n]);
    } else {
      assert selection[..n][i] == selection[i] && oks[..n][i] == oks[i];
      assert selection[i] != selection[n];
      MarkSuccessesSelected(store, selection[..n], oks[..n], running, i);
    }
  }

  /** Only the successes change, and only in their running flag. */
  lemma MarkSuccessesPointwise(store: Store, selection: seq<Id>, oks: seq<bool>, running: bool)
    requires IsSelection(store, selection)
    requires |oks| == |selection|
    ensures var m := MarkSuccesses(store, selection, oks, running);
            && m.Keys == store.Keys
            && (forall id :: id in store && id !in selection ==> m[id] == store[id])
            && (forall i :: 0 <= i < |selection| ==>
                  m[selection[i]] == (if oks[i] then store[selection[i]].(isRunning := running) else store[selection[i]]))
  {
    MarkSuccessesKeys(store, selection, oks, running);
    forall id | id in store && id !in selection
      ensures MarkSuccesses(store, selection, oks, running)[id] == store[id]
    {
      MarkSuccessesUnselected(store, selection, oks, running, id);
    }
    forall i | 0 <= i < |selection|
      ensures MarkSuccesses(store, selection, oks, running)[selection[i]]
           == (if oks[i] then store[selection[i]].(isRunning := running) else store[selection[i]])
    {
      MarkSuccessesSelected(store, selection, oks, running, i);
    }
  }

  // ---------------------------------------------------------------------------
  // Saving
  // ---------------------------------------------------------------------------

  /** `save_model`: stamps the acting user on the edited object and writes it. */
  function SaveModel(store: Store, id: Id, obj: Recording, user: UserId): (s: Store)
    ensures s.Keys == store.Keys + {id}
    ensures s[id].updatedBy == Some(user)
    ensures s[id].(updatedBy := obj.updatedBy) == obj
    ensures forall other :: other in store && other != id ==> s[other] == store[other]
  {
    store[id := obj.(updatedBy := Some(user))]
  }

  // ---------------------------------------------------------------------------
  // Single start and stop
  // ---------------------------------------------------------------------------

  /** `start_recording`. An unknown id makes `get_object` return `None`; reading its file
      then raises inside the `try`, so the runner is never reached and an error is shown. */
  function StartRecording(store: Store, id: Id, ok: bool): (r: AdminResult)
    ensures r.store.Keys == store.Keys
    ensures forall other :: other in store && other != id ==> r.store[other] == store[other]
    ensures id in store ==> r.store[id] == (if ok then store[id].(isRunning := true) else store[id])
    ensures id !in store ==> r.store == store && r.calls == []
    ensures id in store ==> r.calls == [StartProcess(ArgsOf(store[id]))]
    ensures r.messages == [Info] <==> id in store && ok
    ensures |r.messages| == 1
  {
    if id !in store then AdminResult(store, [], [Error])
    else
      var rec := store[id];
      if ok then AdminResult(store[id := rec.(isRunning := true)], [StartProcess(ArgsOf(rec))], [Info])
      else AdminResult(store, [StartProcess(ArgsOf(rec))], [Error])
  }

  /** `stop_recording`: the stop asks for sub-interface removal exactly when the address is
      unique, and only a stop that returned clears the flag. */
  function StopRecording(store: Store, id: Id, ok: bool): (r: AdminResult)
    ensures r.store.Keys == store.Keys
    ensures forall other :: other in store && other != id ==> r.store[other] == store[other]
    ensures id in store ==> r.store[id] == (if ok then store[id].(isRunning := false) else store[id])
    ensures id !in store ==> r.store == store && r.calls == []
    ensures id in store ==> r.calls == [StopProcess(ArgsOf(store[id]), IsIpAddressUnique(store, store[id].ipAddress))]
    ensures r.messages == [Info] <==> id in store && ok
    ensures |r.messages| == 1
  {
    if id !in store then AdminResult(store, [], [Error])
    else
      var rec := store[id];
      var call := StopCallFor(store, rec);
      if ok then AdminResult(store[id := rec.(isRunning := false)], [call], [Info])
      else AdminResult(store, [call], [Error])
  }

  /** Stopping a recording whose address another recording shares never asks for its
      sub-interface to be removed; stopping the only one with that address always does. */
  lemma StopRemovesInterfaceIffNoSharer(store: Store, id: Id, ok: bool)
    requires id in store
    ensures StopRecording(store, id, ok).calls[0].removeSubIface
        <==> (forall other :: other in store && other != id ==> store[other].ipAddress != store[id].ipAddress)
  {
    IpUniqueIffNoSharer(store, id);
  }

  /** Start and stop change nothing but the running flag, so a well-formed table stays so. */
  lemma SingleActionsKeepWellFormed(store: Store, id: Id, ok: bool)
    requires StoreWellFormed(store)
    ensures StoreWellFormed(StartRecording(store, id, ok).store)
    ensures StoreWellFormed(StopRecording(store, id, ok).store)
  {
  }

  // ---------------------------------------------------------------------------
  // Bulk start and stop
  // ---------------------------------------------------------------------------

  /** `start_recordings`: every selected recording gets a start, a failure does not end the
      loop, only the successes are set running and saved, and the failures are reported
      together. */
  method StartRecordings(store: Store, selection: seq<Id>, oks: seq<bool>) returns (r: BulkResult)
    requires IsSelection(store, selection)
    requires |oks| == |selection|
    ensures r.store.Keys == store.Keys
    ensures forall id :: id in store && id !in selection ==> r.store[id] == store[id]
    ensures forall i :: 0 <= i < |selection| ==>
              r.store[selection[i]] == StartRecording(store, selection[i], oks[i]).store[selection[i]]
    ensures |r.calls| == |selection|
    ensures forall i :: 0 <= i < |selection| ==> r.calls[i] == StartProcess(ArgsOf(store[selection[i]]))
    ensures r.failed == Failures(selection, oks)
    ensures r.messages == [if r.failed == [] then Info else Error]
  {
    var current := store;
    var calls: seq<Call> := [];
    var failed: seq<Id> := [];
    for i := 0 to |selection|
      invariant IsSelection(store, selection[..i])
      invariant current == MarkSuccesses(store, selection[..i], oks[..i], true)
      invariant |calls| == i
      invariant forall k :: 0 <= k < i ==> calls[k] == StartProcess(ArgsOf(store[selection[k]]))
      invariant failed == Failures(selection[..i], oks[..i])
    {
      var id := selection[i];
      var recording := store[id];
      calls := calls + [StartProcess(ArgsOf(recording))];
      if !oks[i] {
        failed := failed + [id];
      } else {
        current := current[id := recording.(isRunning := true)];
      }
      assert selection[..i + 1][..i] == selection[..i];
      assert oks[..i + 1][..i] == oks[..i];
    }
    assert selection[..|selection|] == selection;
    assert oks[..|oks|] == oks;
    MarkSuccessesPointwise(store, selection, oks, true);
    r := BulkResult(current, calls, failed, [if failed == [] then Info else Error]);
  }

  /** `stop_recordings`: the mirror image of `StartRecordings`; each stop asks for
      sub-interface removal according to address uniqueness in the table as it is when the
      stop is issued, which the loop's own writes never change. */
  method StopRecordings(store: Store, selection: seq<Id>, oks: seq<bool>) returns (r: BulkResult)
    requires IsSelection(store, selection)
    requires |oks| == |selection|
    ensures r.store.Keys == store.Keys
    ensures forall id :: id in store && id !in selection ==> r.store[id] == store[id]
    ensures forall i :: 0 <= i < |selection| ==>
              r.store[selection[i]] == StopRecording(store, selection[i], oks[i]).store[selection[i]]
    ensures |r.calls| == |selection|
    ensures forall i :: 0 <= i < |selection| ==> r.calls[i] == StopCallFor(store, store[selection[i]])
    ensures r.failed == Failures(selection, oks)
    ensures r.messages == [if r.failed == [] then Info else Error]
  {
    var current := store;
    var calls: seq<Call> := [];
    var failed: seq<Id> := [];
    for i := 0 to |selection|
      invariant IsSelection(store, selection[..i])
      invariant current == MarkSuccesses(store, selection[..i], oks[..i], false)
      invariant SameAddresses(store, current)
      invariant |calls| == i
      invariant forall k :: 0 <= k < i ==> calls[k] == StopCallFor(store, store[selection[k]])
      invariant failed == Failures(selection[..i], oks[..i])
    {
      var id := selection[i];
      var recording := store[id];
      UniquenessKeptBySameAddresses(store, current, recording.ipAddress);
      assert StopCallFor(current, recording) == StopCallFor(store, recording);
      calls := calls + [StopCallFor(current, recording)];
      if !oks[i] {
        failed := failed + [id];
      } else {
        AddressKeepingWrite(store, current, id, recording.(isRunning := false));
        current := current[id := recording.(isRunning := false)];
      }
      assert selection[..i + 1][..i] == selection[..i];
      assert oks[..i + 1][..i] == oks[..i];
    }
    assert selection[..|selection|] == selection;
    assert oks[..|oks|] == oks;
    MarkSuccessesPointwise(store, selection, oks, false);
    r := BulkResult(current, calls, failed, [if failed == [] then Info else Error]);
  }

  // ---------------------------------------------------------------------------
  // Deletion
  // ---------------------------------------------------------------------------

  /** `delete_model`: a stop is attempted first and the row is deleted whatever it did; a
      raised stop only adds an error message. */
  function DeleteModel(store: Store, id: Id, ok: bool): (r: AdminResult)
    requires id in store
    ensures r.store.Keys == store.Keys - {id}
    ensures forall other :: other in r.store ==> r.store[other] == store[other]
    ensures r.calls == [StopCallFor(store, store[id])]
    ensures r.messages == (if ok then [] else [Error])
  {
    AdminResult(store - {id}, [StopCallFor(store, store[id])], if ok then [] else [Error])
  }

  /** `delete_queryset`: every selected recording gets a stop attempt, failures are collected
      and reported once, and the whole selection is deleted however many stops raised. */
  method DeleteQueryset(store: Store, selection: seq<Id>, oks: seq<bool>) returns (r: BulkResult)
    requires IsSelection(store, selection)
    requires |oks| == |selection|
    ensures r.store.Keys == store.Keys - set i | 0 <= i < |selection| :: selection[i]
    ensures forall id :: id in r.store ==> r.store[id] == store[id]
    ensures |r.calls| == |selection|
    ensures forall i :: 0 <= i < |selection| ==> r.calls[i] == StopCallFor(store, store[selection[i]])
    ensures r.failed == Failures(selection, oks)
    ensures r.messages == (if r.failed == [] then [] else [Error])
    ensures forall i, j :: 0 <= i < |selection| && 0 <= j < |selection| && i != j
                           && store[selection[i]].ipAddress == store[selection[j]].ipAddress
                           ==> r.calls[i].StopProcess? && !r.calls[i].removeSubIface
  {
    var calls: seq<Call> := [];
    var failed: seq<Id> := [];
    for i := 0 to |selection|
      invariant |calls| == i
      invariant forall k :: 0 <= k < i ==> calls[k] == StopCallFor(store, store[selection[k]])
      invariant failed == Failures(selection[..i], oks[..i])
    {
      calls := calls + [StopCallFor(store, store[selection[i]])];
      if !oks[i] {
        failed := failed + [selection[i]];
      }
      assert selection[..i + 1][..i] == selection[..i];
      assert oks[..i + 1][..i] == oks[..i];
    }
    assert selection[..|selection|] == selection;
    assert oks[..|oks|] == oks;
    var doomed := set i | 0 <= i < |selection| :: selection[i];
    r := BulkResult(store - doomed, calls, failed, if failed == [] then [] else [Error]);
    forall i, j | 0 <= i < |selection| && 0 <= j < |selection| && i != j
                  && store[selection[i]].ipAddress == store[selection[j]].ipAddress
      ensures r.calls[i].StopProcess? && !r.calls[i].removeSubIface
    {
      DeleteKeepsSharedInterface(store, selection, i, j);
    }
  }

  /** Every stop of a bulk deletion sees the whole selection still stored, so when two selected
      recordings share an address no stop for that address asks for sub-interface removal,
      and the sub-interface outlives every row that used it. */
  lemma DeleteKeepsSharedInterface(store: Store, selection: seq<Id>, i: nat, j: nat)
    requires IsSelection(store, selection)
    requires i < |selection| && j < |selection| && i != j
    requires store[selection[i]].ipAddress == store[selection[j]].ipAddress
    ensures forall k :: 0 <= k < |selection| && store[selection[k]].ipAddress == store[selection[i]].ipAddress
                        ==> !StopCallFor(store, store[selection[k]]).removeSubIface
  {
    forall k | 0 <= k < |selection| && store[selection[k]].ipAddress == store[selection[i]].ipAddress
      ensures !StopCallFor(store, store[selection[k]]).removeSubIface
    {
      IpUniqueIffNoSharer(store, selection[k]);
      var other := if k == i then selection[j] else selection[i];
      assert other in store && other != selection[k];
    }
  }

  /** Deleting a recording issues exactly the stop its stop action would, so it takes the
      sub-interface down exactly when no other recording shares the address. */
  lemma DeleteStopsAsStopAction(store: Store, id: Id, ok: bool)
    requires id in store
    ensures DeleteModel(store, id, ok).calls == StopRecording(store, id, ok).calls
    ensures DeleteModel(store, id, ok).calls[0].removeSubIface
        <==> (forall other :: other in store && other != id ==> store[other].ipAddress != store[id].ipAddress)
  {
    StopRemovesInterfaceIffNoSharer(store, id, ok);
  }

  // ---------------------------------------------------------------------------
  // Add and change with "_start"
  // ---------------------------------------------------------------------------

  /** The shared `_start` branch of `response_add` and `response_change`: start `obj`; on
      success mark it running and, when auto-discovery is on, probe it and keep a returned
      description; on failure mark it stopped; save it either way. */
  function StartAndSave(store: Store, id: Id, obj: Recording, startOk: bool, probe: Option<string>): (r: AdminResult) {
    var start := StartProcess(ArgsOf(obj));
    if !startOk then
      AdminResult(store[id := obj.(isRunning := false)], [start], [Error])
    else
      var discover := obj.autodiscoverSysDesc;
      var desc := if discover && probe.Some? then probe.value else obj.sysDescription;
      var probeCalls := if discover then [ProbeSysDesc(obj.ipAddress, obj.port, obj.snmpReadCommunity)] else [];
      AdminResult(store[id := obj.(isRunning := true, sysDescription := desc)], [start] + probeCalls, [Info])
  }

  /** `response_add`, run after `save_model` has stored `obj` under `id`. Without "_start"
      nothing happens here. With it the object is started and saved in both outcomes: the
      final flag is the start outcome, and the description changes only after a successful
      start with auto-discovery on and a probe that answered. */
  function ResponseAdd(store: Store, id: Id, obj: Recording, startRequested: bool,
                       startOk: bool, probe: Option<string>): (r: AdminResult)
    requires id in store
    ensures !startRequested ==> r.store == store && r.calls == [] && r.messages == []
    ensures startRequested ==> r.store.Keys == store.Keys
    ensures forall other :: other in store && other != id ==> r.store[other] == store[other]
    ensures startRequested ==> r.store[id].isRunning == startOk
    ensures startRequested ==> r.store[id].(isRunning := obj.isRunning, sysDescription := obj.sysDescription) == obj
    ensures startRequested ==>
              (r.store[id].sysDescription != obj.sysDescription
               ==> startOk && obj.autodiscoverSysDesc && probe == Some(r.store[id].sysDescription))
    ensures startRequested && startOk && obj.autodiscoverSysDesc && probe.Some? ==>
              r.store[id].sysDescription == probe.value
    ensures startRequested ==> 1 <= |r.calls| && r.calls[0] == StartProcess(ArgsOf(obj))
    ensures startRequested ==>
              ((exists k :: 0 <= k < |r.calls| && r.calls[k].ProbeSysDesc?) <==> startOk && obj.autodiscoverSysDesc)
    ensures startRequested ==> r.messages == [if startOk then Info else Error]
  {
    if !startRequested then AdminResult(store, [], [])
    else
      var r := StartAndSave(store, id, obj, startOk, probe);
      assert r.calls[0].StartProcess?;
      assert startOk && obj.autodiscoverSysDesc ==> r.calls[1].ProbeSysDesc?;
      r
  }

  /** `response_change`, run after `save_model` has stored `obj` under `id`. A running object
      is stopped first, using the row as re-read from the table, and its flag cleared in
      memory; then, with "_start", it is started and saved as in `ResponseAdd`. Without
      "_start" the cleared flag is never written. */
  function ResponseChange(store: Store, id: Id, obj: Recording, startRequested: bool,
                          startOk: bool, probe: Option<string>): (r: AdminResult)
    requires id in store
    ensures obj.isRunning <==> (|r.calls| > 0 && r.calls[0].StopProcess?)
    ensures obj.isRunning ==> r.calls[0] == StopCallFor(store, store[id])
    ensures forall k :: 0 < k < |r.calls| ==> !r.calls[k].StopProcess?
    ensures !startRequested ==> r.store == store && r.messages == []
    ensures !startRequested ==> |r.calls| == (if obj.isRunning then 1 else 0)
    ensures startRequested ==> r.store.Keys == store.Keys
    ensures forall other :: other in store && other != id ==> r.store[other] == store[other]
    ensures startRequested ==> r.store[id].isRunning == startOk
    ensures startRequested ==> r.store[id].(isRunning := obj.isRunning, sysDescription := obj.sysDescription) == obj
    ensures startRequested ==>
              (exists k :: 0 <= k < |r.calls| && r.calls[k] == StartProcess(ArgsOf(obj)))
    ensures startRequested ==> r.messages == [if startOk then Info else Error]
  {
    var stops := if obj.isRunning then [StopCallFor(store, store[id])] else [];
    var cleared := if obj.isRunning then obj.(isRunning := false) else obj;
    if !startRequested then AdminResult(store, stops, [])
    else
      var started := StartAndSave(store, id, cleared, startOk, probe);
      assert ArgsOf(cleared) == ArgsOf(obj);
      assert (stops + started.calls)[|stops|] == started.calls[0];
      AdminResult(started.store, stops + started.calls, started.messages)
  }

  /** The "_start" branches of `response_add` and `response_change` behave alike: a change
      is an add of the object marked stopped, preceded by the stop of the stored row when the
      object was running. */
  lemma AddAndChangeStartAgree(store: Store, id: Id, obj: Recording, startOk: bool, probe: Option<string>)
    requires id in store
    ensures var change := ResponseChange(store, id, obj, true, startOk, probe);
            var add := ResponseAdd(store, id, obj.(isRunning := false), true, startOk, probe);
            && change.calls == (if obj.isRunning then [StopCallFor(store, store[id])] else []) + add.calls
            && change.store == add.store
            && change.messages == add.messages
    ensures !obj.isRunning ==>
              ResponseChange(store, id, obj, true, startOk, probe) == ResponseAdd(store, id, obj, true, startOk, probe)
  {
    if !obj.isRunning {
      assert obj.(isRunning := false) == obj;
    }
  }

  /** The admin's change flow as written: `save_model` stores the edited object, then
      `response_change` runs on it. The edited object carries the stored running flag
      because that field is read-only in the form. Since the save comes first, the row
      that `response_change` re-reads as the old recording already holds the new values, and
      a running recording is stopped with them. */
  function ChangeFlow(store: Store, id: Id, obj: Recording, user: UserId,
                      startRequested: bool, startOk: bool, probe: Option<string>): (r: AdminResult)
    requires id in store && obj.isRunning == store[id].isRunning
    ensures var saved := SaveModel(store, id, obj, user);
            obj.isRunning ==> |r.calls| > 0 && r.calls[0] == StopProcess(ArgsOf(obj), IsIpAddressUnique(saved, obj.ipAddress))
  {
    var saved := SaveModel(store, id, obj, user);
    ResponseChange(saved, id, saved[id], startRequested, startOk, probe)
  }

  /** Saving a running recording without "_start" stops its daemon but leaves the table
      saying it is running. */
  lemma ChangeWithoutStartKeepsRunningFlag(store: Store, id: Id, obj: Recording, user: UserId,
                                           startOk: bool, probe: Option<string>)
    requires id in store && obj.isRunning == store[id].isRunning
    requires obj.isRunning
    ensures var r := ChangeFlow(store, id, obj, user, false, startOk, probe);
            |r.calls| == 1 && r.calls[0].StopProcess? && r.store[id].isRunning
  {
  }

  /** A running recording on port 161 edited to port 162: the stop kills by a command line
      that differs from the one its daemon was launched with, so that daemon keeps running. */
  lemma ChangeFlowMissesRunningDaemon(s: Runner.Settings)
    ensures var before := Recording("dev1", "10.0.0.5", 161, "public", true, "/srv/recordings/1/dev1.snmprec",
                                    0, 0, None, false, "", "");
            var r := ChangeFlow(map[1 := before], 1, before.(port := 162), 7, false, true, None);
            && r.calls[0].args != ArgsOf(before)
            && Runner.StartCommand(s, r.calls[0].args) != Runner.StartCommand(s, ArgsOf(before))
  {
    var before := Recording("dev1", "10.0.0.5", 161, "public", true, "/srv/recordings/1/dev1.snmprec",
                            0, 0, None, false, "", "");
    var r := ChangeFlow(map[1 := before], 1, before.(port := 162), 7, false, true, None);
    var stopped := r.calls[0].args;
    assert stopped.port == 162;
    if Runner.StartCommand(s, stopped) == Runner.StartCommand(s, ArgsOf(before)) {
      Runner.StartCommandDistinguishes(s, stopped, ArgsOf(before));
    }
  }

  /** The change flow as its names and log messages describe it: a running recording is
      stopped with the row as stored before the edit, then the edit is saved, then the
      "_start" branch runs on the edited object as in `ResponseChange`. */
  function ChangeFlowIntended(store: Store, id: Id, obj: Recording, user: UserId,
                              startRequested: bool, startOk: bool, probe: Option<string>): (r: AdminResult)
    requires id in store && obj.isRunning == store[id].isRunning
    ensures obj.isRunning <==> (|r.calls| > 0 && r.calls[0].StopProcess?)
    ensures forall k :: 0 < k < |r.calls| ==> !r.calls[k].StopProcess?
    ensures r.store.Keys == store.Keys
    ensures startRequested ==> r.store[id].isRunning == startOk
    ensures startRequested ==> r.messages == [if startOk then Info else Error]
  {
    var stops := if obj.isRunning then [StopCallFor(store, store[id])] else [];
    var saved := SaveModel(store, id, obj, user);
    var edited := saved[id];
    var cleared := if edited.isRunning then edited.(isRunning := false) else edited;
    if !startRequested then AdminResult(saved, stops, [])
    else
      var started := StartAndSave(saved, id, cleared, startOk, probe);
      AdminResult(started.store, stops + started.calls, started.messages)
  }

  /** In the intended flow the stop targets exactly the daemon launched from the stored row,
      and any restart uses exactly the edited values: never a mix of the two. */
  lemma ChangeFlowIntendedStopsLaunchedDaemon(store: Store, id: Id, obj: Recording, user: UserId,
                                              startRequested: bool, startOk: bool, probe: Option<string>)
    requires id in store && obj.isRunning == store[id].isRunning
    ensures var r := ChangeFlowIntended(store, id, obj, user, startRequested, startOk, probe);
            && (obj.isRunning ==> r.calls[0].args == ArgsOf(store[id]))
            && (forall k :: 0 <= k < |r.calls| && r.calls[k].StartProcess? ==> r.calls[k].args == ArgsOf(obj))
  {
    var r := ChangeFlowIntended(store, id, obj, user, startRequested, startOk, probe);
    var edited := obj.(updatedBy := Some(user));
    assert ArgsOf(edited) == ArgsOf(obj);
    assert ArgsOf(edited.(isRunning := false)) == ArgsOf(obj);
  }
}

=== FILE: api.dfy ===
/** The REST start and stop actions of `RecordingViewSet` (simulator/api.py): each maps a
    table, a primary key and the runner's outcome to an HTTP status, a body, the new table
    and the runner calls made. */
module Api {
  import opened Text
  import opened Models
  import opened Effects
  import Admin

  const HttpNoContent: nat := 204
  const HttpBadRequest: nat := 400
  const HttpInternalServerError: nat := 500

  /** A response body: the empty success payload or `{'error': message}`. */
  datatype Body = Content(text: string) | ErrorBody(error: string)

  datatype ApiResult = ApiResult(status: nat, body: Body, store: Store, calls: seq<Call>)

  function NotFoundMessage(pk: Id): (message: string) {
    "Recording with ID " + NatToDecimal(pk) + ", does not exist"
  }

  /** `start`: 400 for an unknown key without touching the runner, 500 when the runner
      raised with nothing saved, and 204 after saving the recording as running. */
  function Start(store: Store, pk: Id, ok: bool): (r: ApiResult)
    ensures r.status in {HttpNoContent, HttpBadRequest, HttpInternalServerError}
    ensures r.status == HttpBadRequest <==> pk !in store
    ensures r.status == HttpInternalServerError <==> pk in store && !ok
    ensures r.status == HttpBadRequest ==> r.calls == [] && r.body == ErrorBody(NotFoundMessage(pk))
    ensures r.status != HttpNoContent ==> r.store == store && r.body.ErrorBody?
    ensures pk in store ==> r.calls == [StartProcess(ArgsOf(store[pk]))]
    ensures r.status == HttpNoContent ==>
              r.store == store[pk := store[pk].(isRunning := true)] && r.body == Content("")
  {
    if pk !in store then ApiResult(HttpBadRequest, ErrorBody(NotFoundMessage(pk)), store, [])
    else
      var rec := store[pk];
      var call := StartProcess(ArgsOf(rec));
      if !ok then ApiResult(HttpInternalServerError, ErrorBody("Failed to start recording " + Str(rec)), store, [call])
      else ApiResult(HttpNoContent, Content(""), store[pk := rec.(isRunning := true)], [call])
  }

  /** `stop`: the same three outcomes; the stop asks for sub-interface removal exactly when
      the recording's address is unique. */
  function Stop(store: Store, pk: Id, ok: bool): (r: ApiResult)
    ensures r.status in {HttpNoContent, HttpBadRequest, HttpInternalServerError}
    ensures r.status == HttpBadRequest <==> pk !in store
    ensures r.status == HttpInternalServerError <==> pk in store && !ok
    ensures r.status == HttpBadRequest ==> r.calls == [] && r.body == ErrorBody(NotFoundMessage(pk))
    ensures r.status != HttpNoContent ==> r.store == store && r.body.ErrorBody?
    ensures pk in store ==>
              r.calls == [StopProcess(ArgsOf(store[pk]), IsIpAddressUnique(store, store[pk].ipAddress))]
    ensures r.status == HttpNoContent ==>
              r.store == store[pk := store[pk].(isRunning := false)] && r.body == Content("")
  {
    if pk !in store then ApiResult(HttpBadRequest, ErrorBody(NotFoundMessage(pk)), store, [])
    else
      var rec := store[pk];
      var call := StopCallFor(store, rec);
      if !ok then ApiResult(HttpInternalServerError, ErrorBody("Failed to stop recording " + Str(rec)), store, [call])
      else ApiResult(HttpNoContent, Content(""), store[pk := rec.(isRunning := false)], [call])
  }

  /** The REST actions and the admin's per-record links make the same runner calls and leave
      the same table; the REST call succeeds exactly when the admin shows its success
      message. */
  lemma AgreesWithAdmin(store: Store, pk: Id, ok: bool)
    ensures Start(store, pk, ok).store == Admin.StartRecording(store, pk, ok).store
    ensures Start(store, pk, ok).calls == Admin.StartRecording(store, pk, ok).calls
    ensures Start(store, pk, ok).status == HttpNoContent <==> Admin.StartRecording(store, pk, ok).messages == [Admin.Info]
    ensures Stop(store, pk, ok).store == Admin.StopRecording(store, pk, ok).store
    ensures Stop(store, pk, ok).calls == Admin.StopRecording(store, pk, ok).calls
    ensures Stop(store, pk, ok).status == HttpNoContent <==> Admin.StopRecording(store, pk, ok).messages == [Admin.Info]
  {
  }

  /** A successful start followed by a successful stop leaves the recording as it was apart
      from a cleared running flag. */
  lemma StartThenStop(store: Store, pk: Id)
    requires pk in store
    ensures var started := Start(store, pk, true).store;
            Stop(started, pk, true).store == store[pk := store[pk].(isRunning := false)]
  {
  }
}

=== FILE: effects.dfy ===
/** The calls the admin and REST layers make into the process runner and the SNMP probe,
    recorded as data so that their order and arguments can be stated. */
module Effects {
  import opened Models

  /** The four recording fields every runner call passes on. */
  datatype ProcessArgs = ProcessArgs(recordingFile: string, ipAddress: string, port: nat, snmpReadCommunity: string)

  function ArgsOf(r: Recording): (a: ProcessArgs) {
    ProcessArgs(r.recordingFile, r.ipAddress, r.port, r.snmpReadCommunity)
  }

  datatype Call =
    | StartProcess(args: ProcessArgs)
    | StopProcess(args: ProcessArgs, removeSubIface: bool)
      /** `SNMPHandler(ip, community, port).get_sys_desc()`. */
    | ProbeSysDesc(ipAddress: string, port: nat, snmpReadCommunity: string)

  predicate IsRunnerCall(c: Call) {
    c.StartProcess? || c.StopProcess?
  }

  /** A stop of `r` as every caller issues it: sub-interface removal asked for exactly when
      `r`'s address is unique in `store`. */
  function StopCallFor(store: Store, r: Recording): (c: Call) {
    StopProcess(ArgsOf(r), IsIpAddressUnique(store, r.ipAddress))
  }
}

=== FILE: forms.dfy ===
/** The recording form's address picker (simulator/forms.py): the hosts of the configured
    network split into free addresses and addresses already used by recordings. The host
    enumeration of the network is an input sequence. */
module Forms {
  import opened Text
  import opened Seqs
  import opened Models

  /** One `(value, label)` option of a select widget. */
  datatype Choice = Choice(value: string, display: string)

  /** A labelled option group. */
  datatype ChoiceGroup = ChoiceGroup(name: string, choices: seq<Choice>)

  /** The address field's option groups and initial value. */
  datatype IpField = IpField(groups: seq<ChoiceGroup>, initial: string)

  const FreeLabel := "Free"
  const UsedLabel := "Used in other Recordings"

  /** `values_list("ip_address", flat=True)`: one address per recording, in query order,
      duplicates kept. */
  function UsedIps(rows: seq<Recording>): (used: seq<string>)
    ensures |used| == |rows|
    ensures forall i :: 0 <= i < |rows| ==> used[i] == rows[i].ipAddress
  {
    seq(|rows|, i requires 0 <= i < |rows| => rows[i].ipAddress)
  }

  /** The hosts that no recording uses, in host order. */
  function FreeOf(hosts: seq<string>, used: seq<string>): (free: seq<string>) {
    if |hosts| == 0 then []
    else
      var n := |hosts| - 1;
      FreeOf(hosts[..n], used) + (if hosts[n] in used then [] else [hosts[n]])
  }

  /** An address is free exactly when it is a host and no recording uses it. */
  lemma {:induction false} FreeOfMembers(hosts: seq<string>, used: seq<string>)
    ensures forall x :: x in FreeOf(hosts, used) <==> x in hosts && x !in used
  {
    if |hosts| > 0 {
      var n := |hosts| - 1;
      FreeOfMembers(hosts[..n], used);
      assert hosts == hosts[..n] + [hosts[n]];
    }
  }

  /** Free addresses keep the hosts' order. */
  lemma {:induction false} FreeOfInHostOrder(hosts: seq<string>, used: seq<string>)
    ensures IsSubsequence(FreeOf(hosts, used), hosts)
  {
    if |hosts| > 0 {
      var n := |hosts| - 1;
      var rest := hosts[..n];
      var front := FreeOf(rest, used);
      FreeOfInHostOrder(rest, used);
      assert rest + [hosts[n]] == hosts;
      if hosts[n] in used {
        assert FreeOf(hosts, used) == front;
        SubsequenceExtend(front, rest, hosts[n]);
      } else {
        assert FreeOf(hosts, used) == front + [hosts[n]];
        SubsequenceAppendBoth(front, rest, hosts[n]);
      }
    }
  }

  /** There are no free addresses exactly when every host is used; otherwise the first
      free address is the first host, in host order, that no recording uses. */
  lemma {:induction false} FirstFree(hosts: seq<string>, used: seq<string>)
    ensures FreeOf(hosts, used) == [] <==> forall j :: 0 <= j < |hosts| ==> hosts[j] in used
    ensures FreeOf(hosts, used) != [] ==>
              exists k :: 0 <= k < |hosts| && hosts[k] == FreeOf(hosts, used)[0] && hosts[k] !in used
                          && forall j :: 0 <= j < k ==> hosts[j] in used
  {
    if |hosts| > 0 {
      var n := |hosts| - 1;
      var front := FreeOf(hosts[..n], used);
      FirstFree(hosts[..n], used);
      assert forall j :: 0 <= j < n ==> hosts[..n][j] == hosts[j];
      if front != [] {
        var k :| 0 <= k < n && hosts[..n][k] == front[0] && hosts[..n][k] !in used
                 && forall j :: 0 <= j < k ==> hosts[..n][j] in used;
        assert FreeOf(hosts, used)[0] == front[0];
        assert hosts[k] == FreeOf(hosts, used)[0];
      } else if hosts[n] !in used {
        assert FreeOf(hosts, used) == [hosts[n]];
      }
    }
  }

  /** `_get_recordings_ips`'s filter: the hosts not in the used list. */
  method FreeIps(hosts: seq<string>, used: seq<string>) returns (free: seq<string>)
    ensures free == FreeOf(hosts, used)
    ensures forall x :: x in free <==> x in hosts && x !in used
  {
    free := [];
    for i := 0 to |hosts|
      invariant free == FreeOf(hosts[..i], used)
    {
      if hosts[i] !in used {
        free := free + [hosts[i]];
      }
      assert hosts[..i + 1][..i] == hosts[..i];
    }
    assert hosts[..|hosts|] == hosts;
    FreeOfMembers(hosts, used);
  }

  /** `_get_recordings_ips`: the free and used lists, which never share an address. */
  method GetRecordingsIps(hosts: seq<string>, rows: seq<Recording>) returns (free: seq<string>, used: seq<string>)
    ensures used == UsedIps(rows)
    ensures free == FreeOf(hosts, used)
    ensures forall i, j :: 0 <= i < |free| && 0 <= j < |used| ==> free[i] != used[j]
    ensures forall i :: 0 <= i < |free| ==> free[i] in hosts
  {
    used := UsedIps(rows);
    free := FreeIps(hosts, used);
    forall i, j | 0 <= i < |free| && 0 <= j < |used|
      ensures free[i] != used[j]
    {
      assert free[i] in free && used[j] in used;
    }
  }

  /** `(ip, ip)` for every address. */
  function Pairs(ips: seq<string>): (cs: seq<Choice>)
    ensures |cs| == |ips|
    ensures forall i :: 0 <= i < |ips| ==> cs[i] == Choice(ips[i], ips[i])
  {
    seq(|ips|, i requires 0 <= i < |ips| => Choice(ips[i], ips[i]))
  }

  /** The form's `__init__`: two option groups, free then used, and the first free address
      (or the empty string) as initial value. */
  method IpAddressField(hosts: seq<string>, rows: seq<Recording>) returns (f: IpField)
    ensures |f.groups| == 2
    ensures f.groups[0] == ChoiceGroup(FreeLabel, Pairs(FreeOf(hosts, UsedIps(rows))))
    ensures f.groups[1] == ChoiceGroup(UsedLabel, Pairs(UsedIps(rows)))
    ensures var free := FreeOf(hosts, UsedIps(rows)); f.initial == (if free == [] then "" else free[0])
    ensures (forall j :: 0 <= j < |hosts| ==> hosts[j] in UsedIps(rows)) ==> f.initial == ""
    ensures (exists j :: 0 <= j < |hosts| && hosts[j] !in UsedIps(rows)) ==>
              exists k :: 0 <= k < |hosts| && hosts[k] == f.initial && f.initial !in UsedIps(rows)
                          && forall j :: 0 <= j < k ==> hosts[j] in UsedIps(rows)
  {
    var free, used := GetRecordingsIps(hosts, rows);
    var groups := [ChoiceGroup(FreeLabel, Pairs(free)), ChoiceGroup(UsedLabel, Pairs(used))];
    var initial := if |free| > 0 then free[0] else "";
    FirstFree(hosts, used);
    f := IpField(groups, initial);
  }
}

=== FILE: models.dfy ===
/** The `Recording` entity (simulator/models.py) and the table that holds recordings. */
module Models {
  import opened Wrappers

  type Id = nat
  type UserId = nat

  /** Seconds since the epoch; the model never reads a clock, timestamps are given. */
  type Timestamp = int

  /** One simulated SNMP device. `autodiscoverSysDesc`, `sysDescription` and `comment` are
      used by the admin form and actions although the model class shown does not declare
      them; they are carried here without defaults. */
  datatype Recording = Recording(
    name: string,
    ipAddress: string,
    port: nat,
    snmpReadCommunity: string,
    isRunning: bool,
    // The uploaded file as the runner receives it: `recording_file.path`, the storage's
    // absolute path, not the name stored in the column.
    recordingFile: string,
    createdAt: Timestamp,
    updatedAt: Timestamp,
    updatedBy: Option<UserId>,
    autodiscoverSysDesc: bool,
    sysDescription: string,
    comment: string)

  /** The recordings table, keyed by primary key. */
  type Store = map<Id, Recording>

  const DefaultPort: nat := 161
  const DefaultCommunity: string := "public"
  /** `max_length` of the two `CharField`s. */
  const MaxCharLength: nat := 255

  /** A field-level valid row: both character fields within their maximum length. */
  predicate WellFormed(r: Recording) {
    |r.name| <= MaxCharLength && |r.snmpReadCommunity| <= MaxCharLength
  }

  predicate StoreWellFormed(store: Store) {
    forall id :: id in store ==> WellFormed(store[id])
  }

  /** A recording created with only the required fields given: the model's defaults apply. */
  function NewRecording(name: string, ipAddress: string, recordingFile: string, now: Timestamp,
                        autodiscoverSysDesc: bool, sysDescription: string, comment: string): (r: Recording)
    ensures r.port == 161 && r.snmpReadCommunity == "public"
    ensures !r.isRunning
    ensures r.updatedBy.None?
    ensures r.createdAt == r.updatedAt == now
    ensures r.name == name && r.ipAddress == ipAddress && r.recordingFile == recordingFile
    ensures WellFormed(r) <==> |name| <= 255
  {
    Recording(name, ipAddress, DefaultPort, DefaultCommunity, false, recordingFile, now, now, None,
              autodiscoverSysDesc, sysDescription, comment)
  }

  /** `__str__`: the name, then " IP: ", then the address. */
  function Str(r: Recording): (s: string)
    ensures |s| == |r.name| + 5 + |r.ipAddress|
    ensures r.name <= s
    ensures s[|r.name|..|r.name| + 5] == " IP: "
    ensures s[|r.name| + 5..] == r.ipAddress
  {
    r.name + " IP: " + r.ipAddress
  }

  /** The primary keys of the recordings bound to `ip`. */
  function IdsWithIp(store: Store, ip: string): (ids: set<Id>) {
    set id | id in store && store[id].ipAddress == ip
  }

  /** `Recording.objects.is_ip_address_unique(ip)`: exactly one recording has this address.
      The custom manager that defines it is not part of this model; this definition is taken
      as an assumption from the helper's name. */
  predicate IsIpAddressUnique(store: Store, ip: string) {
    |IdsWithIp(store, ip)| == 1
  }

  /** For a stored recording, its address is unique exactly when no other recording
      shares it, which is when its sub-interface may be torn down. */
  lemma IpUniqueIffNoSharer(store: Store, id: Id)
    requires id in store
    ensures IsIpAddressUnique(store, store[id].ipAddress)
        <==> (forall other :: other in store && other != id ==> store[other].ipAddress != store[id].ipAddress)
  {
    var ip := store[id].ipAddress;
    var ids := IdsWithIp(store, ip);
    assert id in ids;
    if forall other :: other in store && other != id ==> store[other].ipAddress != ip {
      assert ids == {id};
    } else {
      var other :| other in store && other != id && store[other].ipAddress == ip;
      assert {id, other} <= ids;
      assert |{id, other}| == 2;
      assert |ids| >= 2 by {
        SubsetCardinality({id, other}, ids);
      }
    }
  }

  lemma SubsetCardinality(a: set<Id>, b: set<Id>)
    requires a <= b
    ensures |a| <= |b|
  {
    assert b == a + (b - a);
  }

  /** A write that changes only running state, description and auditing fields of a row
      leaves every address, and so every uniqueness answer, as it was. */
  predicate SameAddresses(a: Store, b: Store) {
    a.Keys == b.Keys && forall id :: id in a ==> a[id].ipAddress == b[id].ipAddress
  }

  /** Writing a row that keeps its address keeps every address in the table. */
  lemma AddressKeepingWrite(a: Store, b: Store, id: Id, r: Recording)
    requires SameAddresses(a, b)
    requires id in a && r.ipAddress == a[id].ipAddress
    ensures SameAddresses(a, b[id := r])
  {
  }

  lemma UniquenessKeptBySameAddresses(a: Store, b: Store, ip: string)
    requires SameAddresses(a, b)
    ensures IsIpAddressUnique(a, ip) == IsIpAddressUnique(b, ip)
  {
    assert IdsWithIp(a, ip) == IdsWithIp(b, ip);
  }
}

=== FILE: runner.dfy ===
/** The process runner (simulator/snmpsim_runner.py): it turns recording fields into
    operating-system commands. Each runner operation is modelled as the list of commands it
    issues; an oracle says how each command ends, in place of actually running it. */
module Runner {
  import opened Wrappers
  import opened Text
  import opened Effects

  /** The deployment settings the runner reads: launcher path, daemon user and group, and
      the name of the host interface that sub-interfaces are added to. */
  datatype Settings = Settings(scriptPath: string, user: string, group: string, ifaceName: string)

  datatype Command =
      /** `subprocess.check_output(argv)`. */
    | Exec(argv: seq<string>)
      /** `os.system(line)`. */
    | Shell(line: string)

  /** How a command ends: exit status 0, a non-zero exit status, or not started at all
      (executable missing, permission denied). */
  datatype Exit = Ok | NonZero | NotLaunched

  /** The commands a runner operation issued, in order, and whether it raised. */
  datatype Trace = Trace(issued: seq<Command>, raised: bool)

  // ---------------------------------------------------------------------------
  // The launcher command line
  // ---------------------------------------------------------------------------

  /** `f"{ip_address}:{port}"`. */
  function Endpoint(ip: string, port: nat): (e: string) {
    ip + ":" + NatToDecimal(port)
  }

  /** Reads `ip:port` back, splitting at the last colon so that IPv6 addresses survive. */
  function ParseEndpoint(e: string): (parsed: Option<(string, nat)>) {
    var i := AfterLast(e, ':');
    if i == 0 then None
    else match ParseNat(e[i..])
      case None => None
      case Some(port) => Some((e[..i - 1], port))
  }

  lemma EndpointRoundTrip(ip: string, port: nat)
    ensures ParseEndpoint(Endpoint(ip, port)) == Some((ip, port))
  {
    var digits := NatToDecimal(port);
    assert ':' !in digits by {
      assert forall k :: 0 <= k < |digits| ==> IsDigit(digits[k]);
    }
    AfterLastOfJoined(ip, ':', digits);
    var e := ip + [':'] + digits;
    assert e[|ip| + 1..] == digits;
    assert e[..|ip|] == ip;
    DecimalRoundTrip(port);
  }

  const ProcessUserFlag := "--process-user="
  const ProcessGroupFlag := "--process-group="
  const DataDirFlag := "--data-dir="
  const EndpointFlag := "--agent-udpv4-endpoint="
  const V2cArchFlag := "--v2c-arch"
  const CommunityFlag := "--v2c-community="
  const DaemonizeFlag := "--daemonize"

  /** `_prepare_start_command`: launcher path followed by seven options in a fixed order. */
  function StartCommand(s: Settings, a: ProcessArgs): (argv: seq<string>)
    ensures |argv| == 8
    ensures argv[0] == s.scriptPath
    ensures ProcessUserFlag <= argv[1] && ProcessGroupFlag <= argv[2] && DataDirFlag <= argv[3]
    ensures EndpointFlag <= argv[4] && argv[5] == V2cArchFlag && CommunityFlag <= argv[6]
    ensures argv[7] == DaemonizeFlag
  {
    [s.scriptPath,
     ProcessUserFlag + s.user,
     ProcessGroupFlag + s.group,
     DataDirFlag + DirName(a.recordingFile),
     EndpointFlag + Endpoint(a.ipAddress, a.port),
     V2cArchFlag,
     CommunityFlag + a.snmpReadCommunity,
     DaemonizeFlag]
  }

  /** What a launcher command line tells the simulator daemon. */
  datatype LaunchConfig = LaunchConfig(
    scriptPath: string, user: string, group: string,
    dataDir: string, ipAddress: string, port: nat, snmpReadCommunity: string)

  /** `flag + value` read back as `value`. */
  function ValueAfterFlag(flag: string, arg: string): (value: Option<string>) {
    if flag <= arg then Some(arg[|flag|..]) else None
  }

  /** Reads a launcher command line back into the configuration it carries. */
  function ParseStartCommand(argv: seq<string>): (config: Option<LaunchConfig>) {
    if |argv| != 8 || argv[5] != V2cArchFlag || argv[7] != DaemonizeFlag then None
    else
      match (ValueAfterFlag(ProcessUserFlag, argv[1]), ValueAfterFlag(ProcessGroupFlag, argv[2]),
             ValueAfterFlag(DataDirFlag, argv[3]), ValueAfterFlag(EndpointFlag, argv[4]),
             ValueAfterFlag(CommunityFlag, argv[6]))
      case (Some(user), Some(group), Some(dir), Some(endpoint), Some(community)) =>
        (match ParseEndpoint(endpoint)
         case None => None
         case Some(ep) => Some(LaunchConfig(argv[0], user, group, dir, ep.0, ep.1, community)))
      case _ => None
  }

  /** The launcher is told to serve the directory of the recording file on `ip:port` with the
      recording's community, as the configured user and group. */
  lemma StartCommandRoundTrip(s: Settings, a: ProcessArgs)
    ensures ParseStartCommand(StartCommand(s, a))
         == Some(LaunchConfig(s.scriptPath, s.user, s.group, DirName(a.recordingFile),
                              a.ipAddress, a.port, a.snmpReadCommunity))
  {
    var argv := StartCommand(s, a);
    assert argv[1][|ProcessUserFlag|..] == s.user;
    assert argv[2][|ProcessGroupFlag|..] == s.group;
    assert argv[3][|DataDirFlag|..] == DirName(a.recordingFile);
    assert argv[4][|EndpointFlag|..] == Endpoint(a.ipAddress, a.port);
    assert argv[6][|CommunityFlag|..] == a.snmpReadCommunity;
    EndpointRoundTrip(a.ipAddress, a.port);
  }

  /** Two recordings get the same launcher command line only when they agree on data
      directory, address, port and community. */
  lemma StartCommandDistinguishes(s: Settings, a: ProcessArgs, b: ProcessArgs)
    requires StartCommand(s, a) == StartCommand(s, b)
    ensures DirName(a.recordingFile) == DirName(b.recordingFile)
    ensures a.ipAddress == b.ipAddress && a.port == b.port
    ensures a.snmpReadCommunity == b.snmpReadCommunity
  {
    StartCommandRoundTrip(s, a);
    StartCommandRoundTrip(s, b);
  }

  /** The text `stop` matches running processes against: the start command joined with
      single spaces. It begins with the launcher path, and with space-free fields splitting
      it at spaces gives the start command back. */
  function Fingerprint(s: Settings, a: ProcessArgs): (pattern: string)
    ensures s.scriptPath <= pattern
    ensures SpaceFree(s, a) ==> Split(pattern, ' ') == StartCommand(s, a)
  {
    JoinStartsWithFirst(' ', StartCommand(s, a));
    if SpaceFree(s, a) then
      SpaceFreeArgv(s, a);
      SplitJoin(' ', StartCommand(s, a));
      Join(' ', StartCommand(s, a))
    else
      Join(' ', StartCommand(s, a))
  }

  /** No field that goes into the command line contains a space. */
  predicate SpaceFree(s: Settings, a: ProcessArgs) {
    ' ' !in s.scriptPath && ' ' !in s.user && ' ' !in s.group
    && ' ' !in DirName(a.recordingFile) && ' ' !in a.ipAddress && ' ' !in a.snmpReadCommunity
  }

  /** With space-free fields the fingerprint determines the launched configuration, so equal
      fingerprints mean the same daemon configuration. */
  lemma FingerprintDistinguishes(s: Settings, a: ProcessArgs, b: ProcessArgs)
    requires SpaceFree(s, a) && SpaceFree(s, b)
    requires Fingerprint(s, a) == Fingerprint(s, b)
    ensures DirName(a.recordingFile) == DirName(b.recordingFile)
    ensures a.ipAddress == b.ipAddress && a.port == b.port
    ensures a.snmpReadCommunity == b.snmpReadCommunity
  {
    SpaceFreeArgv(s, a);
    SpaceFreeArgv(s, b);
    JoinInjective(' ', StartCommand(s, a), StartCommand(s, b));
    StartCommandDistinguishes(s, a, b);
  }

  lemma SpaceFreeArgv(s: Settings, a: ProcessArgs)
    requires SpaceFree(s, a)
    ensures forall k :: 0 <= k < 8 ==> ' ' !in StartCommand(s, a)[k]
  {
    var digits := NatToDecimal(a.port);
    assert ' ' !in digits by {
      assert forall k :: 0 <= k < |digits| ==> IsDigit(digits[k]);
    }
  }

  // ---------------------------------------------------------------------------
  // Sub-interfaces
  // ---------------------------------------------------------------------------

  /** `ip_address.split('.')[-1]`. */
  function LastSegment(ip: string): (segment: string) {
    var parts := Split(ip, '.');
    parts[|parts| - 1]
  }

  /** The last segment is the text after the last dot, or the whole address when it has no
      dot (an IPv6 address). */
  lemma LastSegmentAfterLastDot(ip: string)
    ensures LastSegment(ip) == ip[AfterLast(ip, '.')..]
    ensures '.' !in LastSegment(ip)
    ensures '.' !in ip ==> LastSegment(ip) == ip
  {
    if '.' !in ip {
      AfterLastUnique(ip, '.', 0);
    }
  }

  /** `_generate_sub_interface_name`: the interface prefix, a colon and the last segment. */
  function SubInterfaceName(s: Settings, ip: string): (name: string)
    ensures name == s.ifaceName + ":" + ip[AfterLast(ip, '.')..]
    ensures s.ifaceName + ":" <= name
    ensures '.' !in name[|s.ifaceName| + 1..]
  {
    LastSegmentAfterLastDot(ip);
    s.ifaceName + ":" + LastSegment(ip)
  }

  /** Two addresses get the same sub-interface exactly when their last segments agree, so
      distinct addresses in different subnets with the same last octet collide. */
  lemma SubInterfaceCollision(s: Settings, ip1: string, ip2: string)
    ensures SubInterfaceName(s, ip1) == SubInterfaceName(s, ip2) <==> LastSegment(ip1) == LastSegment(ip2)
  {
    var n1 := SubInterfaceName(s, ip1);
    var n2 := SubInterfaceName(s, ip2);
    if n1 == n2 {
      assert n1[|s.ifaceName| + 1..] == LastSegment(ip1);
      assert n2[|s.ifaceName| + 1..] == LastSegment(ip2);
    }
  }

  /** A concrete collision: 10.0.0.5 and 192.168.1.5 share sub-interface `<prefix>:5`. */
  lemma SubInterfaceCollisionExample(s: Settings)
    ensures "10.0.0.5" != "192.168.1.5"
    ensures SubInterfaceName(s, "10.0.0.5") == SubInterfaceName(s, "192.168.1.5") == s.ifaceName + ":5"
  {
    assert "10.0.0.5" == "10.0.0" + ['.'] + "5";
    assert "192.168.1.5" == "192.168.1" + ['.'] + "5";
    AfterLastOfJoined("10.0.0", '.', "5");
    AfterLastOfJoined("192.168.1", '.', "5");
    LastSegmentAfterLastDot("10.0.0.5");
    LastSegmentAfterLastDot("192.168.1.5");
  }

  /** `_create_sub_interface`: brings up the address's sub-interface with the address itself
      and a /24 netmask. */
  function CreateSubInterface(s: Settings, ip: string): (c: Command)
    ensures c.Exec? && |c.argv| == 3 && c.argv[0] == "ifconfig"
    ensures c.argv[1] == s.ifaceName + ":" + ip[AfterLast(ip, '.')..]
    ensures |c.argv[2]| == |ip| + 3 && c.argv[2][..|ip|] == ip && c.argv[2][|ip|..] == "/24"
  {
    Exec(["ifconfig", SubInterfaceName(s, ip), ip + "/24"])
  }

  /** `_remove_sub_interface`: takes the address's sub-interface down. */
  function RemoveSubInterface(s: Settings, ip: string): (c: Command)
    ensures c.Exec? && |c.argv| == 3 && c.argv[0] == "ifconfig"
    ensures c.argv[1] == s.ifaceName + ":" + ip[AfterLast(ip, '.')..]
    ensures c.argv[2] == "down"
  {
    Exec(["ifconfig", SubInterfaceName(s, ip), "down"])
  }

  /** Removal for an address takes down the very sub-interface its creation brought up. */
  lemma RemoveUndoesCreate(s: Settings, ip: string)
    ensures CreateSubInterface(s, ip).argv[..2] == RemoveSubInterface(s, ip).argv[..2]
                                               == ["ifconfig", SubInterfaceName(s, ip)]
    ensures CreateSubInterface(s, ip).argv[2] == ip + "/24"
    ensures RemoveSubInterface(s, ip).argv[2] == "down"
  {
  }

  /** Removing the sub-interface of one address takes down the one created for another
      exactly when their last segments agree, so a removal can tear down an interface that a
      different recording's address still relies on. */
  lemma RemoveTargetsCreatedInterface(s: Settings, created: string, removed: string)
    ensures RemoveSubInterface(s, removed).argv[1] == CreateSubInterface(s, created).argv[1]
        <==> LastSegment(removed) == LastSegment(created)
  {
    SubInterfaceCollision(s, removed, created);
  }

  /** `pkill -f '<pattern>'` as handed to the shell: the pattern reads back from between the
      quotes. */
  function PkillLine(pattern: string): (line: string)
    ensures |line| == |pattern| + 11
    ensures line[..10] == "pkill -f '" && line[|line| - 1] == '\''
    ensures line[10..|line| - 1] == pattern
  {
    "pkill -f '" + pattern + "'"
  }

  // ---------------------------------------------------------------------------
  // start, stop, stop_all
  // ---------------------------------------------------------------------------

  /** `start`: create the sub-interface, then launch the daemon. `check_output` raises on a
      non-zero exit or a command that cannot be run, and nothing catches it here. */
  function Start(s: Settings, a: ProcessArgs, oracle: Command -> Exit): (t: Trace)
    ensures 1 <= |t.issued| <= 2
    ensures t.issued[0] == CreateSubInterface(s, a.ipAddress)
    ensures |t.issued| == 2 <==> oracle(CreateSubInterface(s, a.ipAddress)) == Ok
    ensures |t.issued| == 2 ==> t.issued[1] == Exec(StartCommand(s, a))
    ensures !t.raised <==> |t.issued| == 2 && oracle(t.issued[1]) == Ok
  {
    var create := CreateSubInterface(s, a.ipAddress);
    if oracle(create) != Ok then Trace([create], true)
    else
      var launch := Exec(StartCommand(s, a));
      Trace([create, launch], oracle(launch) != Ok)
  }

  /** `stop`: kill every process whose command line matches the start fingerprint (the exit
      status of `os.system` is discarded), then, if asked, take the sub-interface down.
      Only `CalledProcessError` is caught there, so a non-zero exit is swallowed while an
      `ifconfig` that cannot be run still raises. */
  function Stop(s: Settings, a: ProcessArgs, removeSubIface: bool, oracle: Command -> Exit): (t: Trace)
    ensures |t.issued| == (if removeSubIface then 2 else 1)
    ensures t.issued[0] == Shell(PkillLine(Fingerprint(s, a)))
    ensures removeSubIface ==> t.issued[1] == RemoveSubInterface(s, a.ipAddress)
    ensures t.raised <==> removeSubIface && oracle(RemoveSubInterface(s, a.ipAddress)) == NotLaunched
  {
    var kill := Shell(PkillLine(Fingerprint(s, a)));
    if !removeSubIface then Trace([kill], false)
    else
      var down := RemoveSubInterface(s, a.ipAddress);
      Trace([kill, down], oracle(down) == NotLaunched)
  }

  /** `stop_all`: kill everything whose command line contains the launcher path. */
  function StopAll(s: Settings): (t: Trace)
    ensures !t.raised
    ensures |t.issued| == 1 && t.issued[0] == Shell(PkillLine(s.scriptPath))
  {
    Trace([Shell(PkillLine(s.scriptPath))], false)
  }

  /** Runs one runner call recorded by the admin or REST layer. */
  function Execute(s: Settings, c: Call, oracle: Command -> Exit): (t: Trace)
    requires IsRunnerCall(c)
    ensures |t.issued| > 0
    ensures c.StartProcess? ==> t.issued[0] == CreateSubInterface(s, c.args.ipAddress)
    ensures c.StopProcess? ==> t.issued[0] == Shell(PkillLine(Fingerprint(s, c.args)))
    ensures c.StopProcess? && !c.removeSubIface ==> !t.raised
  {
    match c
    case StartProcess(a) => Start(s, a, oracle)
    case StopProcess(a, remove) => Stop(s, a, remove, oracle)
  }

  /** The pattern `stop` kills by is exactly the space-joined command line `start` launched
      with the same four arguments, whatever the commands' outcomes. */
  lemma StopTargetsWhatStartLaunched(s: Settings, a: ProcessArgs, remove: bool,
                                     o1: Command -> Exit, o2: Command -> Exit)
    requires |Start(s, a, o1).issued| == 2
    ensures Stop(s, a, remove, o2).issued[0] == Shell(PkillLine(Join(' ', Start(s, a, o1).issued[1].argv)))
  {
  }

  /** `stop` never fails because of the kill step: without sub-interface removal it cannot
      raise, and with it only an `ifconfig` that cannot be started makes it raise. */
  lemma StopFailsOnlyOnUnrunnableIfconfig(s: Settings, a: ProcessArgs, remove: bool, oracle: Command -> Exit)
    ensures Stop(s, a, remove, oracle).raised ==> remove && oracle(Stop(s, a, remove, oracle).issued[1]) == NotLaunched
    ensures !remove ==> !Stop(s, a, remove, oracle).raised
  {
  }

  /** `stop_all`'s pattern, the launcher path, begins the fingerprint of every start command
      line, so it matches every daemon the runner launched. */
  lemma StopAllCoversEveryStart(s: Settings, a: ProcessArgs)
    ensures StopAll(s).issued[0] == Shell(PkillLine(s.scriptPath))
    ensures s.scriptPath <= Fingerprint(s, a)
  {
    JoinStartsWithFirst(' ', StartCommand(s, a));
  }
}

=== FILE: seqs.dfy ===
/** Generic facts about sequences that keep their order under filtering. */
module Seqs {

  /** `b` keeps the elements of `a` in order, possibly with others in between. */
  predicate IsSubsequence<T(==)>(a: seq<T>, b: seq<T>)
    decreases |b|
  {
    if |a| == 0 then true
    else if |b| == 0 then false
    else if a[|a| - 1] == b[|b| - 1] then IsSubsequence(a[..|a| - 1], b[..|b| - 1])
    else IsSubsequence(a, b[..|b| - 1])
  }

  /** Appending to `b` keeps `a` a subsequence of it. */
  lemma {:induction false} SubsequenceExtend<T>(a: seq<T>, b: seq<T>, x: T)
    requires IsSubsequence(a, b)
    ensures IsSubsequence(a, b + [x])
    decreases |b|, 1
  {
    assert (b + [x])[..|b|] == b;
    if |a| > 0 && a[|a| - 1] == x {
      SubsequenceShorten(a, b);
    }
  }

  /** Dropping the last element of a subsequence keeps it a subsequence. */
  lemma {:induction false} SubsequenceShorten<T>(a: seq<T>, b: seq<T>)
    requires |a| > 0
    requires IsSubsequence(a, b)
    ensures IsSubsequence(a[..|a| - 1], b)
    decreases |b|, 0
  {
    var a' := a[..|a| - 1];
    if |a'| > 0 && |b| > 0 {
      assert b[..|b| - 1] + [b[|b| - 1]] == b;
      if a[|a| - 1] != b[|b| - 1] {
        SubsequenceShorten(a, b[..|b| - 1]);
      }
      SubsequenceExtend(a', b[..|b| - 1], b[|b| - 1]);
    }
  }

  /** Appending the same element to both keeps the subsequence relation. */
  lemma SubsequenceAppendBoth<T>(a: seq<T>, b: seq<T>, x: T)
    requires IsSubsequence(a, b)
    ensures IsSubsequence(a + [x], b + [x])
  {
    assert (a + [x])[..|a|] == a;
    assert (b + [x])[..|b|] == b;
  }
}

=== FILE: text.dfy ===
/** The handful of Python string operations the simulator UI relies on, on `seq<char>`:
    `rfind`, `split`, `join`, `posixpath.dirname`, `rstrip` and decimal formatting of an `int`. */
module Text {
  import opened Wrappers

  // ---------------------------------------------------------------------------
  // rfind
  // ---------------------------------------------------------------------------

  /** The position just past the last `c` in `s`, or 0 when `c` does not occur:
      Python's `s.rfind(c) + 1`. */
  function AfterLast(s: string, c: char): (i: nat)
    ensures i <= |s|
    ensures i > 0 ==> s[i - 1] == c
    ensures c !in s[i..]
  {
    if |s| == 0 then 0
    else if s[|s| - 1] == c then |s|
    else
      var i := AfterLast(s[..|s| - 1], c);
      assert s[i..] == s[..|s| - 1][i..] + [s[|s| - 1]];
      i
  }

  /** No element of `s` from position `j` on equals `c` when `c !in s[j..]`. */
  lemma NotInSuffix(s: string, c: char, j: nat)
    requires j <= |s|
    requires c !in s[j..]
    ensures forall k :: j <= k < |s| ==> s[k] != c
  {
    forall k | j <= k < |s|
      ensures s[k] != c
    {
      assert s[k] == s[j..][k - j];
    }
  }

  /** The two facts in `AfterLast`'s contract pin its result down. */
  lemma AfterLastUnique(s: string, c: char, i: nat)
    requires i <= |s|
    requires i > 0 ==> s[i - 1] == c
    requires c !in s[i..]
    ensures AfterLast(s, c) == i
  {
    var j := AfterLast(s, c);
    NotInSuffix(s, c, j);
    NotInSuffix(s, c, i);
  }

  /** In `u + [c] + t` with no `c` in `t`, the last `c` is the one in the middle. */
  lemma AfterLastOfJoined(u: string, c: char, t: string)
    requires c !in t
    ensures AfterLast(u + [c] + t, c) == |u| + 1
  {
    var s := u + [c] + t;
    assert s[|u| + 1..] == t;
    AfterLastUnique(s, c, |u| + 1);
  }

  // ---------------------------------------------------------------------------
  // split and join on a one-character separator
  // ---------------------------------------------------------------------------

  /** Python's `s.split(c)`: the pieces between the occurrences of `c`, never empty. */
  function Split(s: string, c: char): (parts: seq<string>)
    ensures |parts| > 0
    ensures c !in parts[|parts| - 1]
    decreases |s|
  {
    var i := AfterLast(s, c);
    if i == 0 then [s] else Split(s[..i - 1], c) + [s[i..]]
  }

  /** Python's `sep.join(parts)` for a one-character `sep`. */
  function Join(sep: char, parts: seq<string>): (joined: string)
  {
    if |parts| == 0 then ""
    else if |parts| == 1 then parts[0]
    else Join(sep, parts[..|parts| - 1]) + [sep] + parts[|parts| - 1]
  }

  /** The joined text begins with the first part. */
  lemma {:induction false} JoinStartsWithFirst(sep: char, parts: seq<string>)
    requires |parts| > 0
    ensures parts[0] <= Join(sep, parts)
  {
    if |parts| > 1 {
      JoinStartsWithFirst(sep, parts[..|parts| - 1]);
      assert parts[..|parts| - 1][0] == parts[0];
    }
  }

  /** Splitting a join gives the parts back when no part contains the separator. */
  lemma {:induction false} SplitJoin(sep: char, parts: seq<string>)
    requires |parts| > 0
    requires forall k :: 0 <= k < |parts| ==> sep !in parts[k]
    ensures Split(Join(sep, parts), sep) == parts
  {
    var n := |parts|;
    if n == 1 {
      AfterLastUnique(parts[0], sep, 0);
    } else {
      var front := Join(sep, parts[..n - 1]);
      AfterLastOfJoined(front, sep, parts[n - 1]);
      var s := front + [sep] + parts[n - 1];
      assert s[..|front|] == front;
      assert s[|front| + 1..] == parts[n - 1];
      SplitJoin(sep, parts[..n - 1]);
      assert parts[..n - 1] + [parts[n - 1]] == parts;
    }
  }

  /** So a join identifies its separator-free parts. */
  lemma JoinInjective(sep: char, a: seq<string>, b: seq<string>)
    requires |a| > 0 && |b| > 0
    requires forall k :: 0 <= k < |a| ==> sep !in a[k]
    requires forall k :: 0 <= k < |b| ==> sep !in b[k]
    requires Join(sep, a) == Join(sep, b)
    ensures a == b
  {
    SplitJoin(sep, a);
    SplitJoin(sep, b);
  }

  // ---------------------------------------------------------------------------
  // posixpath.dirname
  // ---------------------------------------------------------------------------

  predicate AllChar(s: string, c: char) {
    forall k :: 0 <= k < |s| ==> s[k] == c
  }

  /** Python's `s.rstrip(c)`: drops every trailing `c`. */
  function RStrip(s: string, c: char): (r: string)
    ensures r <= s
    ensures |r| > 0 ==> r[|r| - 1] != c
    ensures AllChar(s[|r|..], c)
  {
    if |s| == 0 || s[|s| - 1] != c then s
    else
      var r := RStrip(s[..|s| - 1], c);
      assert s[|r|..] == s[..|s| - 1][|r|..] + [c];
      r
  }

  /** Python's `os.path.dirname` on POSIX: everything before the last `/`, with trailing
      slashes removed unless the head consists of slashes only. */
  function DirName(p: string): (d: string)
    ensures d <= p
    ensures '/' !in p ==> d == ""
  {
    var head := p[..AfterLast(p, '/')];
    if head != "" && !AllChar(head, '/') then RStrip(head, '/') else head
  }

  /** The directory of `d + "/" + f` is `d`, for a file name `f` and a directory `d` written
      without a trailing slash. */
  lemma DirNameOfPath(d: string, f: string)
    requires d != "" && d[|d| - 1] != '/'
    requires '/' !in f
    ensures DirName(d + "/" + f) == d
  {
    var p := d + "/" + f;
    AfterLastOfJoined(d, '/', f);
    var head := p[..|d| + 1];
    assert head == d + "/";
    assert head[|d| - 1] != '/';
    var r := RStrip(head, '/');
    assert head[|head| - 1] == '/';
    assert |r| != |head|;
    assert forall k :: |r| <= k < |head| ==> head[k] == '/' by {
      forall k | |r| <= k < |head|
        ensures head[k] == '/'
      {
        assert head[k] == head[|r|..][k - |r|];
      }
    }
    assert |r| >= |d|;
    assert r == head[..|d|];
  }

  // ---------------------------------------------------------------------------
  // Decimal text of a non-negative integer (Python's `str(n)`)
  // ---------------------------------------------------------------------------

  predicate IsDigit(ch: char) {
    '0' <= ch <= '9'
  }

  predicate AllDigits(s: string) {
    forall k :: 0 <= k < |s| ==> IsDigit(s[k])
  }

  function DigitChar(d: nat): (ch: char)
    requires d < 10
    ensures IsDigit(ch)
  {
    ('0' as int + d) as char
  }

  function DigitValue(ch: char): (d: nat)
    requires IsDigit(ch)
    ensures d < 10
    ensures DigitChar(d) == ch
  {
    ch as int - '0' as int
  }

  /** Python's `str(n)` for `n >= 0`: no sign, no leading zero. */
  function NatToDecimal(n: nat): (s: string)
    ensures |s| > 0 && AllDigits(s)
    ensures |s| > 1 ==> s[0] != '0'
  {
    if n < 10 then [DigitChar(n)]
    else
      var s := NatToDecimal(n / 10) + [DigitChar(n % 10)];
      assert s[0] == NatToDecimal(n / 10)[0];
      s
  }

  /** The value of a string of decimal digits (the empty string reads as 0). */
  function ParseDecimal(s: string): (n: nat)
    requires AllDigits(s)
  {
    if |s| == 0 then 0 else ParseDecimal(s[..|s| - 1]) * 10 + DigitValue(s[|s| - 1])
  }

  /** Reading back the decimal text of `n` gives `n`. */
  lemma {:induction false} DecimalRoundTrip(n: nat)
    ensures ParseDecimal(NatToDecimal(n)) == n
  {
    if n >= 10 {
      var s := NatToDecimal(n);
      assert s[..|s| - 1] == NatToDecimal(n / 10);
      DecimalRoundTrip(n / 10);
    }
  }

  /** Parses the whole of `s` as a non-negative decimal number. */
  function ParseNat(s: string): (r: Option<nat>)
    ensures r.Some? <==> s != "" && AllDigits(s)
  {
    if s != "" && AllDigits(s) then Some(ParseDecimal(s)) else None
  }
}

=== FILE: wrappers.dfy ===
/** Optional values: the model's stand-in for Python's `None`. */
module Wrappers {
  datatype Option<+T> = None | Some(value: T)
}
